=== FILE: README.md ===
# TTN sensor map: telemetry state model

A Dafny model of the in-memory state logic of the TTN sensor map server
(`server.js`). The server subscribes to The Things Network applications,
stores every uplink reading per device and metric, places devices on a map,
and serves the stored series to a web page. The model describes the two
maps the server mutates as pure state transitions:

- the device store `devices`, keyed `appId + ':' + devId`. Each record holds
  `eui`, `lat`, `lng` and one sample list per registered metric;
- the session map `applications`, keyed by application id. Each entry holds
  the access key and, later, the MQTT client.

Modules, one per component:

| file | module | contents |
|---|---|---|
| basics.dfy | `Basics` | `Option`, `Result`, `Max`, `Min`, `InheritedNames` (the properties every plain object inherits) |
| registry.dfy | `Registry` | payloads, extractors, metrics, the shipped five-metric registry |
| store.dfy | `Store` | samples, device records, the composite key and its splitting, series creation, the coordinate table |
| uplink.dfy | `Uplink` | the `uplink` handler: unit correction, upsert, coordinate lookup, the ordered metric pass |
| relocation.dfy | `Relocation` | the `location-change` command |
| view.dfy | `View` | the `/` route: series slicing and page rows |
| sessions.dfy | `Sessions` | the synchronous part of `connectApplication`, the persisted projection, the startup reconnect loop |

Modelling choices:

- An uplink payload has an optional `payload_fields` map and an optional
  `metadata.time`. Reading `payload_fields.analog_in_1` when
  `payload_fields` is missing throws before anything changes. Building a
  sample when `metadata` is missing throws in the middle of the pass. That
  exception ends the pass just as a throwing extractor does.
- Extractors are arbitrary total functions that yield `undefined`, a value,
  or an exception. The shipped registry reads `payload_fields.<field>`.
  `Registry.ConfigExtractorsThrowOnlyWithoutFields` shows that, with this
  registry, an extractor can throw only when `payload_fields` is missing.
  The handler has already failed on such a payload, so the extractor-throw
  path matters only for other registries. A missing `metadata` still stops
  the pass at the first metric with a defined value
  (`MissingMetadata("temperature")` when `temp` is present).
- An exception keeps whatever the handler already did. `HandleUplink`
  returns the store as the exception left it, with the events already
  broadcast and the failure.
- Broadcasts (`io.emit`) are returned as an ordered list of events.
- `applications` is a plain object, so `applications[appId]` also finds the
  properties every object inherits (`constructor`, `__proto__`,
  `toString`, ...). Such a value is truthy and has no `client`, so
  `connectApplication` throws "Already connecting" for those names even on
  an empty map. `Basics.InheritedNames` lists them. Device keys always
  contain ':', so the same lookup in `devices` never meets an inherited
  name.

Three behaviours of the code the model keeps as written:

- Stored series have no retention window. Every defined value is appended,
  and only the page view takes a suffix.
- The view slice starts at `max(len - N, 1)`, where `N` is the
  metric's `numberOfEvents`, or 30 when that is missing or zero. The first stored sample is never shown. A series
  holding a single sample shows nothing.
- `connectApplication` on an application whose entry still waits for its
  client throws "Already connecting". It does not replace the pending
  entry.

## Model

| member | source | states |
|---|---|---|
| Registry.ConfigExtractorsThrowOnlyWithoutFields | server.js:36-78 | each shipped extractor throws exactly when `payload_fields` is missing |
| Store.KeyRoundTrip | server.js:102-107 | splitting `appId:devId` on ':' gives back `[appId, devId]` when neither id contains ':' |
| Store.DeviceKeyInjective | server.js:207-208 | two (appId, devId) pairs share a record key iff they are equal, provided application ids contain no ':' |
| Store.EnsureSeries | server.js:211-213 | afterwards every registered metric has a series; existing series keep all their samples; added series are empty; no other key appears |
| Registry.Window | server.js:117 | the window is never zero; it is the configured `numberOfEvents` when that is set and non-zero, and 30 otherwise |
| Registry.ConfigWellFormed | server.js:36-78 | the shipped registry has distinct keys, none of them `eui`, `lat`, `lng` or an inherited object property, and a window of 30 for every metric |
| Store.SplitOn | server.js:104 | splitting yields at least one piece and no piece contains ':' |
| Store.SplitJoin | server.js:104 | joining the pieces of a split with ':' gives the string back |
| Store.JoinSplit | server.js:104 | splitting a ':'-join of ':'-free pieces gives the pieces back |
| Uplink.CorrectAnalog | server.js:200-203 | a defined `analog_in_1` is multiplied by 100; without it the payload is unchanged; no field is added or removed and no other field changes |
| Uplink.CorrectionInvisibleToOtherFields | server.js:200-203 | a field extractor for any other field reads the same value before and after the correction |
| Uplink.Stop | server.js:265-273 | the index where the pass stops is the first metric whose processing throws, or the registry length |
| Uplink.Pass | server.js:265-290 | the pass keeps the set of series keys of the record |
| Uplink.PassFrame | server.js:265-290 | the pass leaves the series of unregistered keys untouched |
| Uplink.PassSeries | server.js:265-281 | metrics before the first throwing one get one sample appended iff their value is defined; that metric and later ones keep their series |
| Uplink.PassFailure | server.js:267-273 | the pass throws iff some metric throws, and the failure names the first such metric |
| Uplink.PassEvents | server.js:276-289 | the broadcast events are the value-changes of the defined metrics before the first throwing one, in registration order |
| Uplink.PrefixGrowth | server.js:276-281 | every series leaves the pass with its old samples as a prefix |
| Uplink.PreparedSeries | server.js:207-213 | the pass starts from the record's old series plus an empty series for every missing registered metric |
| Uplink.Locate | server.js:215-257 | a device listed in the table gets the table's lat/lng; any other record is returned unchanged; identity and series are never touched |
| Uplink.HandleUplink | server.js:199-290 | without `payload_fields` it throws `MissingPayloadFields` with the store unchanged and no broadcast, and only then; otherwise `appId:devId` exists afterwards with `eui = devId` and a series per metric, and other records are unchanged, even if the pass throws |
| Uplink.UplinkDevice | server.js:207-213 | every series an existing record had is still there and keeps its old samples as a prefix, even if the pass throws |
| Uplink.UplinkLocation | server.js:215-263 | a listed `sbox*` device gets the table's coordinates; any other device keeps its location, and a new one has none |
| Uplink.UplinkSeries | server.js:265-281 | for the first throwing metric k: metrics before k gain exactly their defined sample, so the length grows by one with no bound; k and later metrics are unchanged |
| Uplink.UplinkFailure | server.js:265-273 | an uplink with fields throws iff some metric throws, and the failure names the first such metric |
| Uplink.UplinkEvents | server.js:276-289 | the broadcast events are the value-changes of the defined metrics before the first throwing one, in registration order, with the located record's identity |
| Uplink.ConfigUplink | server.js:265-281 | with the shipped registry an uplink never fails because an extractor threw; with fields and metadata present it completes and appends each defined reading to its metric's series |
| Relocation.Relocate | server.js:139-159 | an unknown key changes nothing and broadcasts nothing; a known device gets the new lat/lng only, with one location-change broadcast |
| Relocation.RelocateIdempotent | server.js:148-150 | relocating twice to the same place equals relocating once |
| Relocation.RelocationVersusUplink | server.js:216-257 | a relocation of an unlisted device survives its next uplink; a listed device is put back to its table coordinates |
| View.ViewSeries | server.js:117 | the view is a contiguous suffix of the series with length `max(0, min(N, len - 1))` |
| View.ViewAfterAppend | server.js:117 | for a positive window: the first append to an empty series leaves the view empty; on a non-empty series an append grows a view that is not yet full by the new sample, and slides a full view by one |
| View.ViewAll | server.js:113-118 | the row has one entry per registered metric |
| View.ViewAllEntries | server.js:113-118 | each metric's entry is its series viewed through that metric's own window |
| View.Render | server.js:101-121 | the page has one row per stored record and the store keeps the same records; each row carries the record's eui, lat and lng and one entry per registered metric |
| View.RenderKeepsStore | server.js:113-114 | rendering keeps every record's identity, location and samples and only adds empty series |
| View.FilledIdempotent | server.js:114 | filling missing series twice equals filling once |
| View.RenderIdempotentOnStore | server.js:101-121 | rendering a second time leaves the store as the first rendering left it |
| View.RenderRows | server.js:101-121 | one row per stored device; each row series is the stored series viewed through its metric's window |
| View.RenderRowIds | server.js:104-107 | a row recovers the ids of its key when neither contains ':' |
| Sessions.Connect | server.js:166-177 | throws iff an own entry exists without a client, or no own entry exists and the id names an inherited object property, and then returns no new map; otherwise closes the old client, sets the entry to exactly `{accessKey}` and keeps other entries |
| Sessions.ConnectNeverAddsInherited | server.js:166-177 | connecting under an inherited property name always throws, so a map without such names never gains one |
| Sessions.AccessKeys | server.js:307-315 | the persisted projection has exactly the application ids of the session map, each mapped to its entry's access key |
| Sessions.SnapshotAfterConnect | server.js:307-315 | a successful connect changes the persisted appId to accessKey projection at appId alone |
| Sessions.ReconnectBehaviour | server.js:166-177 | a second connect before a client arrives throws; after a client arrives, a reconnect closes exactly that client |
| Sessions.Restore | server.js:92-96 | on success every enumerated application holds its persisted key and no client, other entries are unchanged and no other id appears; a failure names an enumerated application |
| Sessions.RestoreAdds | server.js:92-96 | reconnecting distinct new applications, none named like an inherited property, one by one never throws |
| Sessions.RestoreRoundTrip | server.js:92-96 | restoring the saved projection, in any key order, reproduces the projection, with every client pending; the saved map holds no inherited property name, as `ConnectNeverAddsInherited` guarantees for maps built by connects |

## Left out

- The MQTT client life cycle (lines 180-199 and 292-298) is not modelled:
  attaching the client, the `error` handler that drops an entry on
  "Not authorized", the `connect` resolution, and the `.catch` that drops
  the entry. These callbacks run asynchronously in a foreign library. The
  model takes their effect, a client present or absent in an entry, as
  part of the input state.
- Express, hbs rendering, static files and `server.listen` (lines 5-22,
  122-129, 162-164) are left out as web-framework plumbing. The page model
  stops at the data handed to the template.
- The socket.io transport is left out. Broadcasts are returned as event
  lists. The `connected` / `connect-failed` replies depend on the
  asynchronous client.
- File persistence and the signal handlers are left out as I/O and process
  life cycle. This covers `fs`, `JSON.parse` / `JSON.stringify` (lines
  88-91 and 316) and lines 323-327. Only the appId to accessKey projection
  and the reconnect loop are modelled.
- Dates, coordinates and readings: `new Date(...)` parsing is left out
  (timestamps are opaque strings). Coordinates are exact reals, not
  floats. Readings are integers, so non-numeric field values (`null`,
  strings, NaN after `*= 100`) are not modelled.
- Object key order is not modelled. Page rows are a map keyed by store key
  rather than an array in insertion order. A registry `reg` stands for the
  `Object.keys(dataMapping)` order the loops at lines 113, 211 and 265
  walk. That order puts integer-like keys first, ascending, and then the
  other keys in insertion order. It matches the text order only when no
  key is integer-like, as in the shipped registry.
- Per-metric display settings (titles, axis labels, ranges, map centre,
  API key) are left out: they only feed the page template.
- Uplink.HandleUplink (and Uplink.Pass, Uplink.UplinkSeries, View.ViewAll,
  View.Render): the device record keeps its series apart from `eui`, `lat`
  and `lng`, and it inherits nothing. In the source they all share one
  plain object. So the model does not promise the source's behaviour for a
  registry key that is not plain (`Registry.PlainKeys`):
  - A key `eui`, `lat` or `lng` collides with the fields set at lines 209
    and 216-257.
  - A key naming an inherited property (`constructor`, `toString`,
    `__proto__`, ...) keeps the inherited truthy value at line 212. Then
    line 277 throws a TypeError on `push`, and the page route throws the
    same way on `slice` at line 117.
  - The model instead stores and shows samples under such keys.
  - `Registry.ConfigWellFormed` proves the shipped registry's keys are all
    plain.
- Logging (`console.*`) is left out.

=== FILE: basics.dfy ===
/** Small shared vocabulary: optional values, success-or-failure results and
    integer helpers used by every other module of the telemetry model. */
module Basics {

  /** A JavaScript property that may be `undefined`. */
  datatype Option<T> = None | Some(value: T)

  /** The outcome of an operation that can throw. */
  datatype Result<T, E> = Success(value: T) | Failure(error: E)

  /** The properties every plain object inherits from `Object.prototype`.
      Looking one of them up on an object that has no own property of that
      name finds a truthy value: a function, or the prototype itself. */
  const InheritedNames: set<string> := {
    "constructor", "__proto__", "hasOwnProperty", "isPrototypeOf", "propertyIsEnumerable",
    "toLocaleString", "toString", "valueOf",
    "__defineGetter__", "__defineSetter__", "__lookupGetter__", "__lookupSetter__"
  }

  function Max(a: int, b: int): int {
    if a >= b then a else b
  }

  function Min(a: int, b: int): int {
    if a <= b then a else b
  }
}

=== FILE: registry.dfy ===
/** The metric registry (`config.dataMapping`): an ordered list of metrics,
    each with a key, a number of events shown by the web view and an
    extractor that reads one value out of an uplink payload. */
module Registry {
  import opened Basics

  type FieldName = string
  /** Sensor readings; the model keeps them integral. */
  type Value = int
  /** `payload.metadata.time`, kept opaque (date parsing is not modelled). */
  type Timestamp = string

  /** An uplink payload as the handler reads it. `fields` is
      `payload_fields` (None when the message carries none); `metadata` is
      `metadata.time` (None when the message has no `metadata` object). */
  datatype Payload = Payload(fields: Option<map<FieldName, Value>>, metadata: Option<Timestamp>)

  /** What an extractor can do: yield `undefined`, yield a value, or throw. */
  datatype Extraction = Undefined | Defined(value: Value) | Threw

  /** One entry of `dataMapping`. `numberOfEvents` is None when the entry
      does not set it. The display titles and ranges only feed the page
      renderer and are not part of the model. */
  datatype Metric = Metric(key: string, numberOfEvents: Option<int>, extract: Payload -> Extraction)

  /** Number of stored samples the view offers for a metric: the
      configured number of events, where a missing or zero setting (a falsy
      one) means 30. The window is never zero, and it is either the
      configured number or the default. */
  function Window(m: Metric): (n: int)
    ensures n != 0
    ensures n == 30 || m.numberOfEvents == Some(n)
    ensures m.numberOfEvents.Some? && m.numberOfEvents.value != 0 ==> n == m.numberOfEvents.value
  {
    match m.numberOfEvents
    case Some(n) => if n != 0 then n else 30
    case None => 30
  }

  /** The shipped extractors read one property of `payload_fields`:
      reading through a missing `payload_fields` throws a TypeError; a
      missing property is `undefined`. */
  function ReadField(p: Payload, field: FieldName): Extraction {
    match p.fields
    case None => Threw
    case Some(fs) => if field in fs then Defined(fs[field]) else Undefined
  }

  /** The metrics the deployment registers, in registration order. */
  const Config: seq<Metric> := [
    Metric("temperature", Some(30), p => ReadField(p, "temp")),
    Metric("co2", Some(30), p => ReadField(p, "co2")),
    Metric("pm25", Some(30), p => ReadField(p, "pm25")),
    Metric("pm10", Some(30), p => ReadField(p, "pm10")),
    Metric("humidity", Some(30), p => ReadField(p, "humidity"))
  ]

  /** The keys of a registry are the property names of an object, so they
      are pairwise distinct. */
  ghost predicate DistinctKeys(ms: seq<Metric>) {
    forall i, j :: 0 <= i < j < |ms| ==> ms[i].key != ms[j].key
  }

  function KeySet(ms: seq<Metric>): set<string> {
    set i | 0 <= i < |ms| :: ms[i].key
  }

  lemma KeySetCons(ms: seq<Metric>)
    requires |ms| > 0
    ensures KeySet(ms) == {ms[0].key} + KeySet(ms[1..])
  {
    forall k | k in KeySet(ms)
      ensures k in {ms[0].key} + KeySet(ms[1..])
    {
      var i :| 0 <= i < |ms| && ms[i].key == k;
      if i > 0 {
        assert ms[1..][i - 1].key == k;
      }
    }
    forall k | k in KeySet(ms[1..])
      ensures k in KeySet(ms)
    {
      var i :| 0 <= i < |ms[1..]| && ms[1..][i].key == k;
      assert ms[i + 1].key == k;
    }
    assert ms[0].key in KeySet(ms);
  }

  /** The tail of a registry with distinct keys never mentions its head. */
  lemma DistinctTail(ms: seq<Metric>)
    requires |ms| > 0 && DistinctKeys(ms)
    ensures DistinctKeys(ms[1..])
    ensures ms[0].key !in KeySet(ms[1..])
  {
  }

  /** The properties a device record sets besides its series. */
  const RecordFields: set<string> := {"eui", "lat", "lng"}

  /** A registry whose keys can live on a device record next to `eui`,
      `lat` and `lng`: no key is one of those, and no key names a property
      the record inherits (such a key would find a truthy function where a
      sample list is expected, and the handler would throw on `push`). The
      store keeps series apart from these fields, so the model gives the
      intended behaviour only to registries with plain keys. */
  predicate PlainKeys(ms: seq<Metric>) {
    forall i :: 0 <= i < |ms| ==> ms[i].key !in RecordFields && ms[i].key !in InheritedNames
  }

  /** The shipped registry has distinct plain keys and a window of 30
      everywhere. */
  lemma ConfigWellFormed()
    ensures DistinctKeys(Config)
    ensures PlainKeys(Config)
    ensures forall i :: 0 <= i < |Config| ==> Window(Config[i]) == 30
  {
  }

  /** The shipped extractors only throw when `payload_fields` is missing,
      which the uplink handler has already rejected at its first statement:
      with this registry the pass is never cut short by an extractor. */
  lemma ConfigExtractorsThrowOnlyWithoutFields(p: Payload, i: int)
    requires 0 <= i < |Config|
    ensures Config[i].extract(p) == Threw <==> p.fields.None?
  {
  }
}

=== FILE: relocation.dfy ===
/** The `location-change` command an observer sends to move a device on
    the map. */
module Relocation {
  import opened Basics
  import opened Registry
  import opened Store
  import opened Uplink

  datatype RelocateOutcome = RelocateOutcome(devices: Devices, events: seq<Event>)

  /** Overwrites the location of a known device and broadcasts the change
      to every observer; an unknown device is ignored without a broadcast. */
  function Relocate(devices: Devices, appId: string, devId: string, lat: real, lng: real): (r: RelocateOutcome)
    ensures DeviceKey(appId, devId) !in devices ==> r.devices == devices && r.events == []
    ensures var key := DeviceKey(appId, devId);
      key in devices ==>
        && r.devices.Keys == devices.Keys
        && (forall k :: k in devices && k != key ==> r.devices[k] == devices[k])
        && r.devices[key].lat == Some(lat) && r.devices[key].lng == Some(lng)
        && r.devices[key].eui == devices[key].eui
        && r.devices[key].series == devices[key].series
        && r.events == [LocationChange(DeviceInfo(appId, devId, devices[key].eui, Some(lat), Some(lng)), lat, lng)]
  {
    var key := DeviceKey(appId, devId);
    if key !in devices then RelocateOutcome(devices, [])
    else
      var d := devices[key].(lat := Some(lat), lng := Some(lng));
      RelocateOutcome(devices[key := d], [LocationChange(InfoOf(appId, devId, d), lat, lng)])
  }

  /** Repeating a relocation changes nothing further. */
  lemma RelocateIdempotent(devices: Devices, appId: string, devId: string, lat: real, lng: real)
    ensures var once := Relocate(devices, appId, devId, lat, lng).devices;
      Relocate(once, appId, devId, lat, lng).devices == once
  {
    var key := DeviceKey(appId, devId);
    var once := Relocate(devices, appId, devId, lat, lng).devices;
    if key in devices {
      assert once[key].(lat := Some(lat), lng := Some(lng)) == once[key];
    }
  }

  /** A manual relocation of a device outside the coordinate table survives
      its later uplinks, while a listed device is pulled back to the
      table's coordinates by its next uplink. */
  lemma RelocationVersusUplink(reg: seq<Metric>, devices: Devices, appId: string, devId: string, lat: real, lng: real, p: Payload)
    requires DeviceKey(appId, devId) in devices
    requires p.fields.Some?
    ensures var moved := Relocate(devices, appId, devId, lat, lng).devices;
      var after := HandleUplink(reg, moved, appId, devId, p).devices;
      var key := DeviceKey(appId, devId);
      && (devId !in LocationTable ==> after[key].lat == Some(lat) && after[key].lng == Some(lng))
      && (devId in LocationTable ==>
            after[key].lat == Some(LocationTable[devId].0) && after[key].lng == Some(LocationTable[devId].1))
  {
    var moved := Relocate(devices, appId, devId, lat, lng).devices;
    UplinkLocation(reg, moved, appId, devId, p);
  }
}

=== FILE: sessions.dfy ===
/** The application session map (`applications`): at most one entry per
    application id, holding the access key and, once the upstream library
    has handed one over, the MQTT client. */
module Sessions {
  import opened Basics

  type AppId = string
  type AccessKey = string
  /** An opaque MQTT client handle. */
  type Client = nat

  datatype Session = Session(accessKey: AccessKey, client: Option<Client>)

  type SessionMap = map<AppId, Session>

  /** Whether `applications[appId]` is truthy and has no client: an own
      entry whose client has not arrived yet, or an inherited property
      (`applications` is a plain object, and an inherited value is a
      function or the prototype itself, neither of which has a `client`). */
  predicate Pending(apps: SessionMap, appId: AppId) {
    if appId in apps then apps[appId].client.None? else appId in InheritedNames
  }

  /** `connectApplication` throws this when `applications[appId]` is
      truthy but has no client. */
  datatype ConnectError = AlreadyConnecting(appId: AppId)

  /** The map after a successful call, and the client it closed, if any. */
  datatype Connected = Connected(sessions: SessionMap, closed: Option<Client>)

  /** The synchronous part of `connectApplication`: an entry still waiting
      for its client, or an inherited property of the same name, makes the
      call throw; otherwise the old entry's client is closed, the entry is
      dropped, and a fresh entry holding only the access key takes its
      place. */
  function Connect(apps: SessionMap, appId: AppId, accessKey: AccessKey): (r: Result<Connected, ConnectError>)
    ensures r.Failure? <==> (appId in apps && apps[appId].client.None?) || (appId !in apps && appId in InheritedNames)
    ensures r.Failure? ==> r.error == AlreadyConnecting(appId)
    ensures r.Success? ==>
      && r.value.sessions.Keys == apps.Keys + {appId}
      && r.value.sessions[appId] == Session(accessKey, None)
      && (forall a :: a in apps && a != appId ==> r.value.sessions[a] == apps[a])
      && r.value.closed == (if appId in apps then apps[appId].client else None)
  {
    if Pending(apps, appId) then Failure(AlreadyConnecting(appId))
    else
      var closed := if appId in apps then apps[appId].client else None;
      var dropped := map a | a in apps && a != appId :: apps[a];
      Success(Connected(dropped[appId := Session(accessKey, None)], closed))
  }

  /** The projection the exit handler persists: application id to access
      key. Live clients are not persisted. */
  function AccessKeys(apps: SessionMap): (db: map<AppId, AccessKey>)
    ensures db.Keys == apps.Keys
    ensures forall a :: a in apps ==> db[a] == apps[a].accessKey
  {
    map a | a in apps :: apps[a].accessKey
  }

  /** A successful connect changes the persisted projection at `appId`
      alone, to the new access key. */
  lemma SnapshotAfterConnect(apps: SessionMap, appId: AppId, accessKey: AccessKey)
    requires Connect(apps, appId, accessKey).Success?
    ensures AccessKeys(Connect(apps, appId, accessKey).value.sessions) == AccessKeys(apps)[appId := accessKey]
  {
    var after := Connect(apps, appId, accessKey).value.sessions;
    assert AccessKeys(after).Keys == AccessKeys(apps)[appId := accessKey].Keys;
  }

  /** A second connect for the same application before the first one's
      client has arrived throws, whatever the key; once a client has been
      attached, a reconnect closes exactly that client and leaves one entry
      holding the new key. */
  lemma ReconnectBehaviour(apps: SessionMap, appId: AppId, k1: AccessKey, k2: AccessKey, client: Client)
    requires Connect(apps, appId, k1).Success?
    ensures Connect(Connect(apps, appId, k1).value.sessions, appId, k2) == Failure(AlreadyConnecting(appId))
    ensures var attached := Connect(apps, appId, k1).value.sessions[appId := Session(k1, Some(client))];
      var r := Connect(attached, appId, k2);
      r.Success? && r.value.closed == Some(client) && r.value.sessions[appId] == Session(k2, None)
  {
  }

  /** The application ids of an enumeration. */
  function Elems(order: seq<AppId>): set<AppId> {
    set a | a in order
  }

  lemma ElemsCons(order: seq<AppId>)
    ensures |order| > 0 ==> Elems(order) == {order[0]} + Elems(order[1..])
  {
  }

  /** The startup loop that reconnects every application of a loaded
      snapshot, in the given key order; the first synchronous throw ends
      the loop. */
  function Restore(apps: SessionMap, db: map<AppId, AccessKey>, order: seq<AppId>): (r: Result<SessionMap, ConnectError>)
    requires forall i :: 0 <= i < |order| ==> order[i] in db
    ensures r.Success? ==>
      && r.value.Keys == apps.Keys + Elems(order)
      && (forall a :: a in apps && a !in Elems(order) ==> r.value[a] == apps[a])
      && (forall i :: 0 <= i < |order| ==> r.value[order[i]] == Session(db[order[i]], None))
    ensures r.Failure? ==> exists i :: 0 <= i < |order| && r.error == AlreadyConnecting(order[i])
    decreases |order|
  {
    ElemsCons(order);
    if |order| == 0 then Success(apps)
    else
      match Connect(apps, order[0], db[order[0]])
      case Failure(e) => Failure(e)
      case Success(c) => Restore(c.sessions, db, order[1..])
  }

  /** Restoring distinct applications, none of them an inherited property
      name, into sessions that do not yet hold them never throws. */
  lemma {:induction false} RestoreAdds(apps: SessionMap, db: map<AppId, AccessKey>, order: seq<AppId>)
    requires forall i :: 0 <= i < |order| ==> order[i] in db && order[i] !in apps && order[i] !in InheritedNames
    requires forall i, j :: 0 <= i < j < |order| ==> order[i] != order[j]
    ensures Restore(apps, db, order).Success?
    decreases |order|
  {
    if |order| > 0 {
      var next := Connect(apps, order[0], db[order[0]]).value.sessions;
      RestoreAdds(next, db, order[1..]);
    }
  }

  /** Round trip of the persisted sessions: saving the projection and
      restoring it at startup, in any enumeration order of its keys,
      reproduces the same projection, with every entry waiting for a new
      client. Maps built by `Connect` never hold an inherited property
      name (`ConnectNeverAddsInherited`). */
  lemma RestoreRoundTrip(apps: SessionMap, order: seq<AppId>)
    requires forall i, j :: 0 <= i < j < |order| ==> order[i] != order[j]
    requires Elems(order) == apps.Keys
    requires apps.Keys !! InheritedNames
    ensures Restore(map[], AccessKeys(apps), order).Success?
    ensures AccessKeys(Restore(map[], AccessKeys(apps), order).value) == AccessKeys(apps)
    ensures forall a :: a in apps ==> Restore(map[], AccessKeys(apps), order).value[a].client.None?
  {
    RoundTripFrom(map[], apps, order);
  }

  /** The round trip, from any start holding no entries. */
  lemma RoundTripFrom(start: SessionMap, apps: SessionMap, order: seq<AppId>)
    requires start.Keys == {}
    requires forall i, j :: 0 <= i < j < |order| ==> order[i] != order[j]
    requires Elems(order) == apps.Keys
    requires apps.Keys !! InheritedNames
    ensures Restore(start, AccessKeys(apps), order).Success?
    ensures AccessKeys(Restore(start, AccessKeys(apps), order).value) == AccessKeys(apps)
    ensures forall a :: a in apps ==> Restore(start, AccessKeys(apps), order).value[a].client.None?
  {
    var db := AccessKeys(apps);
    EnumeratedKeys(apps, order);
    RestoreAdds(start, db, order);
    var r := Restore(start, db, order).value;
    RestoredEntries(r, db, order);
    SameProjection(r, apps);
  }

  /** Two session maps with the same ids and the same key per id persist
      the same projection. */
  lemma SameProjection(r: SessionMap, apps: SessionMap)
    requires r.Keys == apps.Keys
    requires forall a :: a in apps ==> r[a].accessKey == apps[a].accessKey
    ensures AccessKeys(r) == AccessKeys(apps)
  {
  }

  /** Every enumerated application holds its key and no client. */
  lemma RestoredEntries(r: SessionMap, db: map<AppId, AccessKey>, order: seq<AppId>)
    requires forall i :: 0 <= i < |order| ==> order[i] in r && order[i] in db && r[order[i]] == Session(db[order[i]], None)
    ensures forall a :: a in Elems(order) ==> a in r && a in db && r[a] == Session(db[a], None)
  {
    forall a | a in Elems(order)
      ensures a in r && a in db && r[a] == Session(db[a], None)
    {
      var i :| 0 <= i < |order| && order[i] == a;
    }
  }

  /** Every id of an enumeration of a map's keys is a persisted key, and
      none is an inherited property name when the map holds none. */
  lemma EnumeratedKeys(apps: SessionMap, order: seq<AppId>)
    requires Elems(order) == apps.Keys
    requires apps.Keys !! InheritedNames
    ensures forall i :: 0 <= i < |order| ==> order[i] in AccessKeys(apps) && order[i] !in InheritedNames
  {
    forall i | 0 <= i < |order|
      ensures order[i] in apps
    {
      assert order[i] in Elems(order);
    }
  }

  /** Starting from an empty map, connects only ever add own entries for
      names that are not inherited properties: those names always throw. */
  lemma ConnectNeverAddsInherited(apps: SessionMap, appId: AppId, accessKey: AccessKey)
    requires apps.Keys !! InheritedNames
    ensures Connect(apps, appId, accessKey).Success? ==> Connect(apps, appId, accessKey).value.sessions.Keys !! InheritedNames
    ensures appId in InheritedNames ==> Connect(apps, appId, accessKey) == Failure(AlreadyConnecting(appId))
  {
  }
}

=== FILE: store.dfy ===
/** The device series store (the `devices` object): one record per
    `appId:devId` key holding the device id, its last known location and,
    per metric key, the ordered list of samples received so far. */
module Store {
  import opened Basics
  import opened Registry

  datatype Sample = Sample(ts: Timestamp, value: Value)

  type Series = seq<Sample>

  /** A device record. `lat`/`lng` are None until the coordinate table or a
      relocation sets them. */
  datatype Device = Device(eui: string, lat: Option<real>, lng: Option<real>, series: map<string, Series>)

  type Devices = map<string, Device>

  const Separator: char := ':'

  /** The composite store key `appId + ':' + devId`. */
  function DeviceKey(appId: string, devId: string): string {
    appId + [Separator] + devId
  }

  /** `String.prototype.split` on a single character: the pieces between
      separators, in order, with empty pieces kept. There is always at least
      one piece and no piece contains the separator; `Join` undoes it
      (`SplitJoin`, `JoinSplit`). */
  function SplitOn(s: string, sep: char): (parts: seq<string>)
    ensures |parts| >= 1
    ensures forall i :: 0 <= i < |parts| ==> sep !in parts[i]
    decreases |s|
  {
    if |s| == 0 then [""]
    else
      var rest := SplitOn(s[1..], sep);
      if s[0] == sep then [""] + rest
      else [[s[0]] + rest[0]] + rest[1..]
  }

  /** `Array.prototype.join` with a one-character separator. */
  function Join(parts: seq<string>, sep: char): string
    requires |parts| >= 1
    decreases |parts|
  {
    if |parts| == 1 then parts[0] else parts[0] + [sep] + Join(parts[1..], sep)
  }

  /** Joining the pieces of a split gives the string back. */
  lemma {:induction false} SplitJoin(s: string, sep: char)
    ensures Join(SplitOn(s, sep), sep) == s
    decreases |s|
  {
    if |s| > 0 {
      var rest := SplitOn(s[1..], sep);
      SplitJoin(s[1..], sep);
      if s[0] == sep {
        assert ([""] + rest)[1..] == rest;
      } else {
        var parts := [[s[0]] + rest[0]] + rest[1..];
        assert parts[1..] == rest[1..];
        if |rest| > 1 {
          assert Join(rest, sep) == rest[0] + [sep] + Join(rest[1..], sep);
        }
        assert [s[0]] + s[1..] == s;
      }
    }
  }

  /** Splitting a join of separator-free pieces gives the pieces back. */
  lemma {:induction false} JoinSplit(parts: seq<string>, sep: char)
    requires |parts| >= 1
    requires forall i :: 0 <= i < |parts| ==> sep !in parts[i]
    ensures SplitOn(Join(parts, sep), sep) == parts
    decreases |parts|
  {
    if |parts| == 1 {
      SplitNoSeparator(parts[0], sep);
    } else {
      JoinSplit(parts[1..], sep);
      SplitAfterPrefix(parts[0], sep, Join(parts[1..], sep));
      assert [parts[0]] + parts[1..] == parts;
    }
  }

  /** A string without the separator splits into itself. */
  lemma {:induction false} SplitNoSeparator(s: string, sep: char)
    requires sep !in s
    ensures SplitOn(s, sep) == [s]
    decreases |s|
  {
    if |s| > 0 {
      assert sep !in s[1..];
      SplitNoSeparator(s[1..], sep);
      assert [s[0]] + s[1..] == s;
    }
  }

  /** Splitting at a separator-free prefix peels that prefix off. */
  lemma {:induction false} SplitAfterPrefix(a: string, sep: char, rest: string)
    requires sep !in a
    ensures SplitOn(a + [sep] + rest, sep) == [a] + SplitOn(rest, sep)
    decreases |a|
  {
    if |a| == 0 {
      assert a + [sep] + rest == [sep] + rest;
      assert ([sep] + rest)[1..] == rest;
    } else {
      assert (a + [sep] + rest)[1..] == a[1..] + [sep] + rest;
      assert sep !in a[1..];
      SplitAfterPrefix(a[1..], sep, rest);
      assert [a[0]] + a[1..] == a;
    }
  }

  /** The index page recovers `appId` and `devId` from a store key by
      splitting on ':'; this is exact when neither id contains ':'. */
  lemma KeyRoundTrip(appId: string, devId: string)
    requires Separator !in appId && Separator !in devId
    ensures SplitOn(DeviceKey(appId, devId), Separator) == [appId, devId]
  {
    SplitAfterPrefix(appId, Separator, devId);
    SplitNoSeparator(devId, Separator);
  }

  /** In a key whose application id has no ':', the first ':' sits right
      after the application id. */
  lemma FirstSeparator(appId: string, devId: string)
    requires Separator !in appId
    ensures DeviceKey(appId, devId)[|appId|] == Separator
    ensures forall i :: 0 <= i < |appId| ==> DeviceKey(appId, devId)[i] != Separator
  {
  }

  /** Two uplinks share a device record only if they name the same
      application and device, as long as application ids carry no ':'. */
  lemma DeviceKeyInjective(appId: string, devId: string, appId': string, devId': string)
    requires Separator !in appId && Separator !in appId'
    ensures DeviceKey(appId, devId) == DeviceKey(appId', devId') <==> appId == appId' && devId == devId'
  {
    var k, k' := DeviceKey(appId, devId), DeviceKey(appId', devId');
    if k == k' {
      FirstSeparator(appId, devId);
      FirstSeparator(appId', devId');
      assert |appId| == |appId'|;
      assert appId == k[..|appId|] == k'[..|appId'|] == appId';
      assert devId == k[|appId| + 1..] == k'[|appId'| + 1..] == devId';
    }
  }

  /** Gives the record an empty series for every registered metric it
      lacks, in registration order: every metric gains a series, and a
      series that already exists keeps all its samples. */
  function EnsureSeries(series: map<string, Series>, metrics: seq<Metric>): (r: map<string, Series>)
    ensures r.Keys == series.Keys + KeySet(metrics)
    ensures forall k :: k in series ==> r[k] == series[k]
    ensures forall k :: k in r && k !in series ==> r[k] == []
    decreases |metrics|
  {
    if |metrics| == 0 then series
    else
      var k := metrics[0].key;
      KeySetCons(metrics);
      EnsureSeries(if k in series then series else series[k := []], metrics[1..])
  }

  /** The static device-id to (lat, lng) table of the deployment. */
  const LocationTable: map<string, (real, real)> := map[
    "sbox2" := (38.026, -78.501),
    "sbox3" := (38.019, -78.473),
    "sbox4" := (38.047, -78.483),
    "sbox5" := (38.035, -78.491),
    "sbox6" := (38.027, -78.515),
    "sbox7" := (38.025, -78.516),
    "sbox8" := (38.029, -78.484),
    "sbox9" := (38.025, -78.469),
    "sbox10" := (38.031, -78.479),
    "sbox11" := (38.029, -78.484)
  ]
}

=== FILE: uplink.dfy ===
/** The uplink normalizer: the body of the `uplink` handler. One call takes
    the store, the application and device ids and the payload, and yields
    the new store, the `value-change` events broadcast along the way, and
    the exception (if any) that ended the handler. Mutations made before an
    exception stay in the store, as they do in the running process. */
module Uplink {
  import opened Basics
  import opened Registry
  import opened Store

  /** The identity and location broadcast with every event. */
  datatype DeviceInfo = DeviceInfo(appId: string, devId: string, eui: string, lat: Option<real>, lng: Option<real>)

  datatype Event =
    | ValueChange(metric: string, device: DeviceInfo, time: Timestamp, value: Value)
    | LocationChange(device: DeviceInfo, lat: real, lng: real)

  /** Why a handler invocation stopped early. */
  datatype Failure =
    | MissingPayloadFields           // reading `payload_fields.analog_in_1` threw
    | ExtractorThrew(metric: string)  // the metric's extractor threw and was rethrown
    | MissingMetadata(metric: string) // building the sample read `metadata.time` of nothing

  datatype PassOutcome = PassOutcome(series: map<string, Series>, events: seq<Event>, failure: Option<Failure>)

  datatype UplinkOutcome = UplinkOutcome(devices: Devices, events: seq<Event>, failure: Option<Failure>)

  const AnalogField: FieldName := "analog_in_1"

  /** The device divides `analog_in_1` by 100 before sending; the server
      multiplies it back when it is defined. The correction changes that
      field alone, never adds or removes a field, and is the identity on
      payloads without it. */
  function CorrectAnalog(fields: map<FieldName, Value>): (r: map<FieldName, Value>)
    ensures r.Keys == fields.Keys
    ensures AnalogField in fields ==> r[AnalogField] == 100 * fields[AnalogField]
    ensures AnalogField !in fields ==> r == fields
    ensures forall f :: f in fields && f != AnalogField ==> r[f] == fields[f]
  {
    if AnalogField in fields then fields[AnalogField := fields[AnalogField] * 100] else fields
  }

  /** A field extractor for any other field sees the same value before and
      after the correction; in particular none of the registered metrics
      is affected by it. */
  lemma CorrectionInvisibleToOtherFields(fields: map<FieldName, Value>, time: Option<Timestamp>, f: FieldName)
    requires f != AnalogField
    ensures ReadField(Payload(Some(CorrectAnalog(fields)), time), f) == ReadField(Payload(Some(fields), time), f)
  {
  }

  /** Whether processing metric `m` throws: its extractor throws, or it
      yields a value and the sample's timestamp reads a missing `metadata`. */
  predicate Aborts(m: Metric, p: Payload) {
    match m.extract(p)
    case Threw => true
    case Defined(_) => p.metadata.None?
    case Undefined => false
  }

  function FailureOf(m: Metric, p: Payload): Failure {
    if m.extract(p).Threw? then ExtractorThrew(m.key) else MissingMetadata(m.key)
  }

  /** The index of the first metric whose processing throws, or the number
      of metrics when none does. */
  function Stop(metrics: seq<Metric>, p: Payload): (k: nat)
    ensures k <= |metrics|
    ensures forall j :: 0 <= j < k ==> !Aborts(metrics[j], p)
    ensures k < |metrics| ==> Aborts(metrics[k], p)
    decreases |metrics|
  {
    if |metrics| == 0 then 0
    else if Aborts(metrics[0], p) then 0
    else 1 + Stop(metrics[1..], p)
  }

  /** The samples one non-aborting metric adds to its series: one sample
      when its value is defined, none when it is `undefined`. */
  function Appended(m: Metric, p: Payload): Series {
    match m.extract(p)
    case Defined(v) => if p.metadata.Some? then [Sample(p.metadata.value, v)] else []
    case _ => []
  }

  /** The `value-change` events for a run of metrics none of which throws,
      in registration order. */
  function Emitted(metrics: seq<Metric>, p: Payload, info: DeviceInfo): seq<Event>
    decreases |metrics|
  {
    if |metrics| == 0 then []
    else
      var e := match metrics[0].extract(p)
        case Defined(v) => if p.metadata.Some? then [ValueChange(metrics[0].key, info, p.metadata.value, v)] else []
        case _ => [];
      e + Emitted(metrics[1..], p, info)
  }

  /** The ordered pass over the registered metrics (the second `for` loop of
      the handler). Every metric already has a series. */
  function Pass(metrics: seq<Metric>, p: Payload, info: DeviceInfo, series: map<string, Series>): (r: PassOutcome)
    requires KeySet(metrics) <= series.Keys
    ensures r.series.Keys == series.Keys
    ensures r.failure != Some(MissingPayloadFields)
    decreases |metrics|
  {
    if |metrics| == 0 then PassOutcome(series, [], None)
    else
      var m := metrics[0];
      KeySetCons(metrics);
      match m.extract(p)
      case Threw => PassOutcome(series, [], Some(ExtractorThrew(m.key)))
      case Undefined => Pass(metrics[1..], p, info, series)
      case Defined(v) =>
        match p.metadata
        case None => PassOutcome(series, [], Some(MissingMetadata(m.key)))
        case Some(time) =>
          var rest := Pass(metrics[1..], p, info, series[m.key := series[m.key] + [Sample(time, v)]]);
          PassOutcome(rest.series, [ValueChange(m.key, info, time, v)] + rest.events, rest.failure)
  }

  /** The series after processing one metric that does not throw: its
      `Appended` samples at the end of its own series. */
  function Next(m: Metric, p: Payload, series: map<string, Series>): map<string, Series>
    requires m.key in series
  {
    if Appended(m, p) == [] then series else series[m.key := series[m.key] + Appended(m, p)]
  }

  /** The pass only touches the series of registered metrics. */
  lemma {:induction false} PassFrame(metrics: seq<Metric>, p: Payload, info: DeviceInfo, series: map<string, Series>)
    requires KeySet(metrics) <= series.Keys
    ensures forall k :: k in series && k !in KeySet(metrics) ==> Pass(metrics, p, info, series).series[k] == series[k]
    decreases |metrics|
  {
    if |metrics| > 0 {
      var m := metrics[0];
      KeySetCons(metrics);
      match m.extract(p)
      case Threw =>
      case Undefined => PassFrame(metrics[1..], p, info, series);
      case Defined(v) =>
        match p.metadata
        case None =>
        case Some(time) =>
          PassFrame(metrics[1..], p, info, series[m.key := series[m.key] + [Sample(time, v)]]);
    }
  }

  /** The pass in registration order: every metric before the first one
      that throws gets exactly its `Appended` samples at the end of its
      series; that metric and every later one keep their series unchanged. */
  lemma {:induction false} PassSeries(metrics: seq<Metric>, p: Payload, info: DeviceInfo, series: map<string, Series>)
    requires DistinctKeys(metrics)
    requires KeySet(metrics) <= series.Keys
    ensures forall j :: 0 <= j < Stop(metrics, p) ==>
      Pass(metrics, p, info, series).series[metrics[j].key] == series[metrics[j].key] + Appended(metrics[j], p)
    ensures forall j :: Stop(metrics, p) <= j < |metrics| ==>
      Pass(metrics, p, info, series).series[metrics[j].key] == series[metrics[j].key]
    decreases |metrics|
  {
    if |metrics| > 0 {
      var m := metrics[0];
      var tail := metrics[1..];
      KeySetCons(metrics);
      DistinctTail(metrics);
      var r := Pass(metrics, p, info, series);
      if !Aborts(m, p) {
        var next := Next(m, p, series);
        assert next[m.key] == series[m.key] + Appended(m, p) by {
          if Appended(m, p) == [] {
            assert series[m.key] + [] == series[m.key];
          }
        }
        assert r.series == Pass(tail, p, info, next).series by {
          match m.extract(p)
          case Threw =>
          case Undefined =>
          case Defined(v) =>
        }
        PassFrame(tail, p, info, next);
        PassSeries(tail, p, info, next);
        forall j | 1 <= j < |metrics|
          ensures next[metrics[j].key] == series[metrics[j].key]
        {
          assert metrics[j] == tail[j - 1];
        }
        forall j | 0 <= j < Stop(metrics, p)
          ensures r.series[metrics[j].key] == series[metrics[j].key] + Appended(metrics[j], p)
        {
          if j > 0 {
            assert metrics[j] == tail[j - 1];
          }
        }
        forall j | Stop(metrics, p) <= j < |metrics|
          ensures r.series[metrics[j].key] == series[metrics[j].key]
        {
          assert metrics[j] == tail[j - 1];
        }
      }
    }
  }

  /** The pass reports an exception exactly when some metric throws, and it
      is the exception of the first such metric. */
  lemma {:induction false} PassFailure(metrics: seq<Metric>, p: Payload, info: DeviceInfo, series: map<string, Series>)
    requires KeySet(metrics) <= series.Keys
    ensures Pass(metrics, p, info, series).failure.Some? <==> Stop(metrics, p) < |metrics|
    ensures Stop(metrics, p) < |metrics| ==>
      Pass(metrics, p, info, series).failure == Some(FailureOf(metrics[Stop(metrics, p)], p))
    decreases |metrics|
  {
    if |metrics| > 0 {
      var m := metrics[0];
      KeySetCons(metrics);
      if !Aborts(m, p) {
        var next := Next(m, p, series);
        PassFailure(metrics[1..], p, info, next);
      }
    }
  }

  /** The events broadcast by the pass are the `value-change` events of the
      metrics before the first one that throws, in registration order. */
  lemma {:induction false} PassEvents(metrics: seq<Metric>, p: Payload, info: DeviceInfo, series: map<string, Series>)
    requires KeySet(metrics) <= series.Keys
    ensures Pass(metrics, p, info, series).events == Emitted(metrics[..Stop(metrics, p)], p, info)
    decreases |metrics|
  {
    if |metrics| > 0 {
      var m := metrics[0];
      KeySetCons(metrics);
      var k := Stop(metrics, p);
      if !Aborts(m, p) {
        var next := Next(m, p, series);
        PassEvents(metrics[1..], p, info, next);
        assert metrics[..k][1..] == metrics[1..][..k - 1];
      } else {
        assert metrics[..k] == [];
      }
    } else {
      assert metrics[..Stop(metrics, p)] == [];
    }
  }

  /** A brand-new record, as `{}` becomes once `eui` is set. */
  function NewDevice(devId: string): Device {
    Device(devId, None, None, map[])
  }

  /** The fixed-coordinate lookup: a listed device gets the table's
      coordinates, any other device keeps whatever it had. Identity and
      series are never touched. */
  function Locate(d: Device, devId: string): (r: Device)
    ensures r.eui == d.eui && r.series == d.series
    ensures devId in LocationTable ==> r.lat == Some(LocationTable[devId].0) && r.lng == Some(LocationTable[devId].1)
    ensures devId !in LocationTable ==> r == d
  {
    if devId in LocationTable then d.(lat := Some(LocationTable[devId].0), lng := Some(LocationTable[devId].1))
    else d
  }

  /** The record the pass starts from: upserted, `eui` set, a series for
      every registered metric, then located. */
  function Prepared(reg: seq<Metric>, devices: Devices, appId: string, devId: string): Device {
    var key := DeviceKey(appId, devId);
    var d := if key in devices then devices[key] else NewDevice(devId);
    Locate(d.(eui := devId, series := EnsureSeries(d.series, reg)), devId)
  }

  function Corrected(p: Payload): Payload
    requires p.fields.Some?
  {
    p.(fields := Some(CorrectAnalog(p.fields.value)))
  }

  function InfoOf(appId: string, devId: string, d: Device): DeviceInfo {
    DeviceInfo(appId, devId, d.eui, d.lat, d.lng)
  }

  /** The `uplink` handler. Without `payload_fields` it throws before it
      touches anything and broadcasts nothing; that is the only way it
      fails with `MissingPayloadFields`. Otherwise the record `appId:devId`
      exists afterwards, with `eui = devId` and a series per registered
      metric, and every other record is untouched, whether or not the pass
      throws. */
  function HandleUplink(reg: seq<Metric>, devices: Devices, appId: string, devId: string, p: Payload): (r: UplinkOutcome)
    ensures p.fields.None? ==> r == UplinkOutcome(devices, [], Some(MissingPayloadFields))
    ensures r.failure == Some(MissingPayloadFields) <==> p.fields.None?
    ensures p.fields.Some? ==>
      && r.devices.Keys == devices.Keys + {DeviceKey(appId, devId)}
      && (forall k :: k in devices && k != DeviceKey(appId, devId) ==> r.devices[k] == devices[k])
      && r.devices[DeviceKey(appId, devId)].eui == devId
      && KeySet(reg) <= r.devices[DeviceKey(appId, devId)].series.Keys
  {
    if p.fields.None? then UplinkOutcome(devices, [], Some(MissingPayloadFields))
    else
      var key := DeviceKey(appId, devId);
      var d := Prepared(reg, devices, appId, devId);
      var pass := Pass(reg, Corrected(p), InfoOf(appId, devId, d), d.series);
      UplinkOutcome(devices[key := d.(series := pass.series)], pass.events, pass.failure)
  }

  /** An uplink carrying fields never loses a sample of an existing record:
      every series the record had is still there and keeps its old samples
      as a prefix, even when the pass throws. */
  lemma UplinkDevice(reg: seq<Metric>, devices: Devices, appId: string, devId: string, p: Payload)
    requires p.fields.Some?
    ensures var r := HandleUplink(reg, devices, appId, devId, p); var key := DeviceKey(appId, devId);
      && (key in devices ==> devices[key].series.Keys <= r.devices[key].series.Keys)
      && (key in devices ==> forall m :: m in devices[key].series ==> devices[key].series[m] <= r.devices[key].series[m])
  {
    var key := DeviceKey(appId, devId);
    var d := Prepared(reg, devices, appId, devId);
    var cp := Corrected(p);
    var info := InfoOf(appId, devId, d);
    PassFrame(reg, cp, info, d.series);
    var out := Pass(reg, cp, info, d.series).series;
    if key in devices {
      forall m | m in devices[key].series
        ensures devices[key].series[m] <= out[m]
      {
        if m in KeySet(reg) {
          var j :| 0 <= j < |reg| && reg[j].key == m;
          PassSeriesAt(reg, cp, info, d.series, j);
        }
      }
    }
  }

  /** One metric's view of `PassSeries`: its series only ever grows at the end. */
  lemma PassSeriesAt(metrics: seq<Metric>, p: Payload, info: DeviceInfo, series: map<string, Series>, j: int)
    requires KeySet(metrics) <= series.Keys
    requires 0 <= j < |metrics|
    ensures series[metrics[j].key] <= Pass(metrics, p, info, series).series[metrics[j].key]
  {
    PassFrame(metrics, p, info, series);
    PrefixGrowth(metrics, p, info, series, metrics[j].key);
  }

  /** Every series leaves the pass with its old samples as a prefix. */
  lemma {:induction false} PrefixGrowth(metrics: seq<Metric>, p: Payload, info: DeviceInfo, series: map<string, Series>, key: string)
    requires KeySet(metrics) <= series.Keys
    requires key in series
    ensures key in Pass(metrics, p, info, series).series
    ensures series[key] <= Pass(metrics, p, info, series).series[key]
    decreases |metrics|
  {
    PassFrame(metrics, p, info, series);
    if |metrics| > 0 {
      var m := metrics[0];
      KeySetCons(metrics);
      match m.extract(p)
      case Threw =>
      case Undefined => PrefixGrowth(metrics[1..], p, info, series, key);
      case Defined(v) =>
        match p.metadata
        case None =>
        case Some(time) =>
          var next := series[m.key := series[m.key] + [Sample(time, v)]];
          PrefixGrowth(metrics[1..], p, info, next, key);
          assert series[key] <= next[key];
    }
  }

  /** Location after an uplink carrying fields: a listed device gets the
      table's coordinates; any other device keeps its previous location,
      and a new unlisted device has none (there is no fallback). */
  lemma UplinkLocation(reg: seq<Metric>, devices: Devices, appId: string, devId: string, p: Payload)
    requires p.fields.Some?
    ensures var r := HandleUplink(reg, devices, appId, devId, p); var key := DeviceKey(appId, devId);
      && (devId in LocationTable ==>
            r.devices[key].lat == Some(LocationTable[devId].0) && r.devices[key].lng == Some(LocationTable[devId].1))
      && (devId !in LocationTable && key in devices ==>
            r.devices[key].lat == devices[key].lat && r.devices[key].lng == devices[key].lng)
      && (devId !in LocationTable && key !in devices ==>
            r.devices[key].lat.None? && r.devices[key].lng.None?)
  {
  }

  /** The per-metric effect of an uplink carrying fields. With `k` the first
      metric whose processing throws on the corrected payload, each metric
      before `k` has its `Appended` samples (one sample exactly when its
      value is defined) added at the end of its series, and `k` and the
      metrics after it keep their series. The stored series have no length
      bound: a defined value always adds one sample. */
  lemma UplinkSeries(reg: seq<Metric>, devices: Devices, appId: string, devId: string, p: Payload)
    requires p.fields.Some?
    requires DistinctKeys(reg)
    ensures var after := HandleUplink(reg, devices, appId, devId, p).devices[DeviceKey(appId, devId)].series;
      var before := Prepared(reg, devices, appId, devId).series;
      var cp := Corrected(p);
      && (forall j :: 0 <= j < Stop(reg, cp) ==> after[reg[j].key] == before[reg[j].key] + Appended(reg[j], cp))
      && (forall j :: Stop(reg, cp) <= j < |reg| ==> after[reg[j].key] == before[reg[j].key])
      && (forall j :: 0 <= j < Stop(reg, cp) && cp.metadata.Some? && reg[j].extract(cp).Defined? ==>
            |after[reg[j].key]| == |before[reg[j].key]| + 1)
  {
    var d := Prepared(reg, devices, appId, devId);
    PassSeries(reg, Corrected(p), InfoOf(appId, devId, d), d.series);
  }

  /** An uplink carrying fields throws exactly when some metric's
      processing throws on the corrected payload, with the first such
      metric's exception. */
  lemma UplinkFailure(reg: seq<Metric>, devices: Devices, appId: string, devId: string, p: Payload)
    requires p.fields.Some?
    ensures var r := HandleUplink(reg, devices, appId, devId, p); var cp := Corrected(p);
      && (r.failure.Some? <==> Stop(reg, cp) < |reg|)
      && (Stop(reg, cp) < |reg| ==> r.failure == Some(FailureOf(reg[Stop(reg, cp)], cp)))
  {
    var d := Prepared(reg, devices, appId, devId);
    PassFailure(reg, Corrected(p), InfoOf(appId, devId, d), d.series);
  }

  /** The events an uplink carrying fields broadcasts: one `value-change`
      per defined metric before the first throwing one, in registration
      order, each carrying the record's identity and location after the
      coordinate lookup. */
  lemma UplinkEvents(reg: seq<Metric>, devices: Devices, appId: string, devId: string, p: Payload)
    requires p.fields.Some?
    ensures HandleUplink(reg, devices, appId, devId, p).events
      == Emitted(reg[..Stop(reg, Corrected(p))], Corrected(p), InfoOf(appId, devId, Prepared(reg, devices, appId, devId)))
  {
    var d := Prepared(reg, devices, appId, devId);
    PassEvents(reg, Corrected(p), InfoOf(appId, devId, d), d.series);
  }

  /** The series a record had before the uplink, with an empty series for
      each metric it lacked: this is what the pass starts from. */
  lemma PreparedSeries(reg: seq<Metric>, devices: Devices, appId: string, devId: string)
    ensures var key := DeviceKey(appId, devId); var s := Prepared(reg, devices, appId, devId).series;
      && s.Keys == (if key in devices then devices[key].series.Keys else {}) + KeySet(reg)
      && (forall m :: m in s ==> s[m] == (if key in devices && m in devices[key].series then devices[key].series[m] else []))
  {
  }

  /** With the shipped registry an extractor never cuts the pass short:
      the only failures are a missing `payload_fields` or a missing
      `metadata`. An uplink with both appends its defined readings to every
      metric's series and completes. */
  lemma ConfigUplink(devices: Devices, appId: string, devId: string, p: Payload)
    ensures var r := HandleUplink(Config, devices, appId, devId, p);
      r.failure.Some? ==> !r.failure.value.ExtractorThrew?
    ensures p.fields.Some? && p.metadata.Some? ==>
      var r := HandleUplink(Config, devices, appId, devId, p);
      var after := r.devices[DeviceKey(appId, devId)].series;
      var before := Prepared(Config, devices, appId, devId).series;
      && r.failure.None?
      && forall j :: 0 <= j < |Config| ==> after[Config[j].key] == before[Config[j].key] + Appended(Config[j], Corrected(p))
  {
    if p.fields.Some? {
      var cp := Corrected(p);
      forall i | 0 <= i < |Config|
        ensures !Config[i].extract(cp).Threw?
      {
        ConfigExtractorsThrowOnlyWithoutFields(cp, i);
      }
      ConfigWellFormed();
      UplinkFailure(Config, devices, appId, devId, p);
      if p.metadata.Some? {
        assert Stop(Config, cp) == |Config|;
        UplinkSeries(Config, devices, appId, devId, p);
      }
    }
  }
}

=== FILE: view.dfy ===
/** The data the index page (`/` route) hands to its template: one row per
    stored device, carrying for every metric a suffix of its stored series. */
module View {
  import opened Basics
  import opened Registry
  import opened Store

  /** `array.slice(start)` for a non-negative start: everything from
      `start` on, or nothing when `start` is past the end. */
  function SliceFrom(s: Series, start: nat): Series {
    if start >= |s| then [] else s[start..]
  }

  /** The samples the page shows for one series and a window `n`: the slice
      from `max(len - n, 1)`. The first stored sample is never shown, so the
      page shows `min(n, len - 1)` samples (none for a negative window), and
      they are the most recent ones, in stored order. */
  function ViewSeries(s: Series, n: int): (r: Series)
    ensures |r| == Max(0, Min(n, |s| - 1))
    ensures r == s[|s| - |r|..]
  {
    SliceFrom(s, Max(|s| - n, 1))
  }

  /** The first sample ever stored is never shown, so the first append
      leaves the view empty. After that, appending to a series whose view is
      not yet full extends the view by the new sample; once the view is full
      it slides by one. The stored series itself keeps growing: the window
      lives only in the view. */
  lemma ViewAfterAppend(s: Series, n: int, x: Sample)
    requires n >= 1
    ensures |s| == 0 ==> ViewSeries(s + [x], n) == []
    ensures 1 <= |s| && |s| - 1 < n ==> ViewSeries(s + [x], n) == ViewSeries(s, n) + [x]
    ensures 1 <= |s| && |s| - 1 >= n ==> ViewSeries(s + [x], n) == ViewSeries(s, n)[1..] + [x]
  {
    var v, v' := ViewSeries(s, n), ViewSeries(s + [x], n);
    assert (s + [x])[..|s|] == s;
    if |s| == 0 {
    } else if |s| - 1 < n {
      assert v' == (s + [x])[1..];
      assert v == s[1..];
      assert (s + [x])[1..] == s[1..] + [x];
    } else {
      assert v' == (s + [x])[|s| + 1 - n..];
      assert v == s[|s| - n..];
      assert (s + [x])[|s| + 1 - n..] == s[|s| + 1 - n..] + [x];
      assert s[|s| + 1 - n..] == s[|s| - n..][1..];
    }
  }

  /** One page row: the ids recovered from the store key, the record's
      identity and location, and the shown part of every series. */
  datatype Row = Row(appId: string, devId: Option<string>, eui: string, lat: Option<real>, lng: Option<real>,
                     series: map<string, Series>)

  /** The page data, together with the store as the route leaves it (the
      route also gives every record an empty series for any metric it
      lacks). */
  datatype Page = Page(devices: Devices, rows: map<string, Row>)

  /** The shown part of every registered metric's series. */
  function ViewAll(series: map<string, Series>, metrics: seq<Metric>): (r: map<string, Series>)
    requires KeySet(metrics) <= series.Keys
    ensures r.Keys == KeySet(metrics)
    decreases |metrics|
  {
    if |metrics| == 0 then map[]
    else
      var m := metrics[0];
      KeySetCons(metrics);
      ViewAll(series, metrics[1..])[m.key := ViewSeries(series[m.key], Window(m))]
  }

  /** With distinct keys, each metric's entry is its series viewed through
      that metric's own window. */
  lemma {:induction false} ViewAllEntries(series: map<string, Series>, metrics: seq<Metric>)
    requires KeySet(metrics) <= series.Keys
    requires DistinctKeys(metrics)
    ensures forall j :: 0 <= j < |metrics| ==>
      ViewAll(series, metrics)[metrics[j].key] == ViewSeries(series[metrics[j].key], Window(metrics[j]))
    decreases |metrics|
  {
    if |metrics| > 0 {
      KeySetCons(metrics);
      DistinctTail(metrics);
      ViewAllEntries(series, metrics[1..]);
      forall j | 1 <= j < |metrics|
        ensures ViewAll(series, metrics)[metrics[j].key] == ViewSeries(series[metrics[j].key], Window(metrics[j]))
      {
        assert metrics[j] == metrics[1..][j - 1];
      }
    }
  }

  function RowOf(key: string, d: Device, reg: seq<Metric>): Row
    requires KeySet(reg) <= d.series.Keys
  {
    var parts := SplitOn(key, Separator);
    Row(parts[0], if |parts| >= 2 then Some(parts[1]) else None, d.eui, d.lat, d.lng, ViewAll(d.series, reg))
  }

  /** A record with an empty series added for every registered metric it
      lacks, as the route does before slicing. */
  function Filled(d: Device, reg: seq<Metric>): (r: Device)
    ensures KeySet(reg) <= r.series.Keys
  {
    d.(series := EnsureSeries(d.series, reg))
  }

  /** `after` is `before` with, at most, empty series added for registered
      metrics: identity, location and every stored sample are kept. */
  ghost predicate Extends(before: Device, after: Device, reg: seq<Metric>) {
    && after.eui == before.eui
    && after.lat == before.lat && after.lng == before.lng
    && after.series.Keys == before.series.Keys + KeySet(reg)
    && (forall m :: m in before.series ==> after.series[m] == before.series[m])
    && (forall m :: m in after.series && m !in before.series ==> after.series[m] == [])
  }

  /** `row` shows, for every registered metric, the record's series
      viewed through that metric's window. */
  ghost predicate Shows(row: Row, d: Device, reg: seq<Metric>) {
    && KeySet(reg) <= d.series.Keys
    && row.series.Keys == KeySet(reg)
    && forall j :: 0 <= j < |reg| ==> row.series[reg[j].key] == ViewSeries(d.series[reg[j].key], Window(reg[j]))
  }

  /** The `/` route: one row per stored record, showing that record's
      identity, location and one entry per registered metric; the store
      keeps the same records. */
  function Render(devices: Devices, reg: seq<Metric>): (r: Page)
    ensures r.devices.Keys == devices.Keys && r.rows.Keys == devices.Keys
    ensures forall k :: k in devices ==>
      && r.rows[k].eui == devices[k].eui
      && r.rows[k].lat == devices[k].lat && r.rows[k].lng == devices[k].lng
      && r.rows[k].series.Keys == KeySet(reg)
  {
    var stored := map k | k in devices :: Filled(devices[k], reg);
    Page(stored, map k | k in stored :: RowOf(k, stored[k], reg))
  }

  /** Rendering keeps every record's identity, location and samples and
      only adds empty series for missing metrics. */
  lemma RenderKeepsStore(devices: Devices, reg: seq<Metric>)
    ensures Render(devices, reg).devices.Keys == devices.Keys
    ensures forall k :: k in devices ==> Extends(devices[k], Render(devices, reg).devices[k], reg)
  {
  }

  /** Filling a record a second time adds nothing. */
  lemma FilledIdempotent(d: Device, reg: seq<Metric>)
    ensures Filled(Filled(d, reg), reg) == Filled(d, reg)
  {
    var once := Filled(d, reg).series;
    var twice := EnsureSeries(once, reg);
    assert twice.Keys == once.Keys;
    assert forall m :: m in once ==> twice[m] == once[m];
  }

  /** Rendering again leaves the store as the first rendering left it. */
  lemma RenderIdempotentOnStore(devices: Devices, reg: seq<Metric>)
    ensures Render(Render(devices, reg).devices, reg).devices == Render(devices, reg).devices
  {
    var after := Render(devices, reg).devices;
    var again := Render(after, reg).devices;
    forall k | k in after
      ensures again[k] == after[k]
    {
      FilledIdempotent(devices[k], reg);
    }
  }

  /** Each row shows, for every registered metric, the most recent samples
      of the stored series through that metric's window, never the first
      stored sample. */
  lemma RenderRows(devices: Devices, reg: seq<Metric>)
    requires DistinctKeys(reg)
    ensures Render(devices, reg).rows.Keys == devices.Keys
    ensures forall k :: k in devices ==> Shows(Render(devices, reg).rows[k], Render(devices, reg).devices[k], reg)
  {
    var page := Render(devices, reg);
    forall k | k in devices
      ensures Shows(page.rows[k], page.devices[k], reg)
    {
      ViewAllEntries(page.devices[k].series, reg);
    }
  }

  /** A row recovers the application and device ids of its key when
      neither contains ':'. */
  lemma RenderRowIds(devices: Devices, reg: seq<Metric>, appId: string, devId: string)
    requires DeviceKey(appId, devId) in devices
    requires Separator !in appId && Separator !in devId
    ensures Render(devices, reg).rows[DeviceKey(appId, devId)].appId == appId
    ensures Render(devices, reg).rows[DeviceKey(appId, devId)].devId == Some(devId)
  {
    KeyRoundTrip(appId, devId);
  }
}
